=== FILE: README.md ===
# microsoft-translate-api in Dafny

This project models the core of `microsoft-translate-api`, a small client for the Microsoft
Translator v3 text-translation endpoint. It covers three pieces:

- **The language resolver** (`src/lang.ts`). `getLangCode` maps a user-supplied identifier
  to a canonical code of the generated language table. The identifier may be a code in any
  case, or an English display name. `isSupported` reports whether that lookup succeeds.
- **The client** (`src/index.ts`). Covered here:
  - the `translate` pipeline: the empty-text no-op, language normalisation, the
    unsupported-language check, the query string, the body and the headers, and how the
    reply settles the call;
  - the process-wide token state behind `ensureAuthentication`, `fetchGlobalConfig` and
    `isTokenExpired`;
  - `buildHeaders`.
- **The table generator** (`scripts/generate-langs.js`). It projects the provider's language
  list to code → English name and serialises that object with `stringifyWithOptionalQuotes`.

Files:

| file | contents |
|---|---|
| `wrappers.dfy` | `Option` |
| `strings.dfy` | ASCII lower-casing, JavaScript `join`, `split("\n")` (`Lines`) with its lemmas over concatenation and `join`, character counting, decimal printing |
| `records.dfy` | a JavaScript plain object as an ordered list of (key, value) pairs: lookup, property assignment, `Object.assign` |
| `lang.dfy` | `getLangCode` (a method with its scan loop, specified by the recursive `Scan`/`Resolve`) and `isSupported` |
| `request.dfy` | the pure request shaping of `translate`: normalisation, the error message, query, body, headers |
| `client.dfy` | the token state machine (`EnsureAuth`), the reply handling, `TranslateSpec`, and the class `Client` with the module-level variables `globalConfig` / `globalConfigPromise` as fields |
| `generate_langs.dfy` | the `reduce` that builds the map, the serialiser, and a decoder for the formatted keys and JSON strings |

Modelling choices:

- **The language table** is an ordered list of (code, display name) pairs in object key order.
  `LANGS[lang]` is the first entry with that key. The scan walks the entries in order and
  returns on the first match.
- **JavaScript truthiness is explicit.**
  - `LANGS[lang]` counts only when the display name is non-empty.
  - `isSupported` needs a defined, non-empty code.
  - `getLangCode(t) || "en"` replaces both an unresolved target and an empty code.
- **The token state** is the pair (`globalConfig`, state of `globalConfigPromise`). The
  promise state is none stored, fulfilled or rejected. Each `fetchGlobalConfig` is modelled as
  settled before the `await` that follows it returns. The outcome of each auth GET is a
  parameter:
  - `initial` is the fetch started at `src/index.ts:186`;
  - `refresh` is the fetch started at `src/index.ts:192`.
  An outcome is a token with its `exp` claim, or a failure. `tokenExpiresAt` is `exp * 1000`.
  It is 0 when the claim is missing or not a number: `NaN || 0` in `isTokenExpired`.
- **The clock** (`Date.now()`) is the parameter `now`.
- **The reply of the translate endpoint** is a parameter of `Translate`.
- **`DEFAULT_USER_AGENT`** is the client's `defaultUserAgent`, given to the constructor.
  `src/config.json` is not part of this model.

Behaviour of the code worth knowing:

- **An unresolvable target becomes "en".** `to.map(t => getLangCode(t) || "en")`
  (src/index.ts:112) replaces it, so the unsupported-language check of src/index.ts:118-131
  can only fire when `"en"` itself is not in the table (`Request.UnsupportedUnreachable`).
  When it fires it names the normalised values, not the caller's identifiers
  (`Request.UnsupportedNamesDefault`).
- **The message names the source alone when the source fails.** Otherwise it names every
  target, supported or not (src/index.ts:124-127, `Request.SupportError`).
- **The exact-key fast path comes first.** `getLangCode` returns an identifier that is a key
  with a display name as it is, and only otherwise scans for the first entry matching in
  lower case (src/lang.ts:26-39). Case-insensitivity and display-name lookup therefore hold
  on tables without clashes between codes and names, and the lemmas state them under
  `CollisionFree`.
- **A rejected `globalConfigPromise` is never cleared.** src/index.ts:185-189 only starts a
  fetch when no promise is stored, so one failed auth fetch makes every later call without
  `authenticationHeaders` fail (`Client.StickyFailure`).
- **The headers `buildHeaders` builds start from `DEFAULT_USER_AGENT`** (src/index.ts:205),
  never from `options.userAgent`, which only reaches the auth GET (src/index.ts:186, 192).
  `fetchOptions.headers` can still override it (src/index.ts:216).
- **`fetchOptions` is spread last over the request config** (src/index.ts:141-146). So
  `fetchOptions.headers` replaces the merged headers of `buildHeaders` outright, including
  the authorization (`Request.RequestShape`).

## Model

| member | source | states |
|---|---|---|
| Lang.Scan | src/lang.ts:30-39 | the lower-cased scan gives nothing exactly when no entry's lower-cased code or name equals the input, and otherwise the code of the first matching entry |
| Lang.IsNamedKey | src/lang.ts:26 | `LANGS[lang]` is truthy: the identifier is a key whose display name is not empty |
| Lang.Resolve | src/lang.ts:21-40 | whatever `getLangCode` returns is a key of the table |
| Lang.GetLangCode | src/lang.ts:21-40 | the indexed loop with early return computes exactly the specification `Resolve` (falsy input → undefined, truthy exact key → itself, else the first case-insensitive match) and returns only table keys |
| Lang.IsSupported | src/lang.ts:47-49 | with non-empty keys, a language is supported exactly when `getLangCode` resolves it |
| Lang.ScanFirstMatch | src/lang.ts:34-38 | when entry i is the first whose code or name matches ignoring case, the scan returns entry i's code |
| Lang.ResolveByScan | src/lang.ts:26-40 | an identifier that is not a key with a display name resolves to c exactly when c is the code of the first matching entry, and to undefined exactly when no entry matches |
| Lang.ResolveCanonical | src/lang.ts:26-28 | a canonical key with a non-empty name resolves to itself |
| Lang.ResolveIsScan | src/lang.ts:26-39 | on a collision-free table the exact fast path agrees with the scan, so resolution depends only on the lower-cased identifier |
| Lang.ResolveCaseInsensitive | src/lang.ts:30-37 | on a collision-free table, two identifiers equal up to case resolve to the same code |
| Lang.ResolveDisplayName | src/lang.ts:36-37 | on a collision-free table, an English display name resolves to its own code |
| Lang.ResolvedIsSupported | src/lang.ts:21-49 | every code `getLangCode` returns passes `isSupported` |
| Records.Set | src/index.ts:209-213 | property assignment: an existing key keeps the key list as it was, a new key is appended last with its value |
| Records.SetGet | src/index.ts:209-213 | after the assignment the key holds the new value and every other key keeps its value |
| Records.Assign | src/index.ts:216 | `Object.assign` and an object spread: the source's entries assigned one by one, in order, onto the target; `Records.AssignGet` and `Records.AssignKeysPrefix` state its effect |
| Records.AssignGet | src/index.ts:215-217 | after `Object.assign`, a key of the source holds the source's last value for it and every other key keeps the target's value |
| Records.AssignKeysPrefix | src/index.ts:151-154 | an object spread keeps the target's keys first, in their order |
| Request.IsEmptyText | src/index.ts:102 | the early return of `translate`: the text is the empty string or the empty list |
| Request.Segments | src/index.ts:133-135 | a scalar text becomes a one-segment list |
| Request.NormalizeFrom | src/index.ts:106-107 | "auto-detect" in any case, an absent or empty source all become unset; any other source is exactly what `getLangCode` resolves it to, a table key when set |
| Request.ResolveTarget | src/index.ts:112 | one target's code, or "en" when it resolves to nothing or to the empty code |
| Request.NormalizeTargets | src/index.ts:109-116 | a scalar target becomes a list; each target becomes its resolved code, or "en" when it is unresolved or resolves to the empty code; an empty list becomes ["en"]; every entry is "en" or a key |
| Request.UnsupportedUnreachable | src/index.ts:106-131 | when "en" is supported, no input makes `translate` throw the unsupported-language error |
| Request.SupportError | src/index.ts:118-131 | the check fails exactly when a set, non-empty source or some target is unsupported; a failing source gives "Unsupported language(s): '<from>'", otherwise the message lists every target quoted and joined with ", " |
| Request.LanguageError | src/index.ts:106-131 | the check on the normalised source and targets (the error the call throws, if any) |
| Request.UnsupportedNamesDefault | src/index.ts:112-130 | for every table without a supported "en" and every target it cannot resolve, the call without source fails with "Unsupported language(s): 'en'", naming 'en' rather than the caller's identifier |
| Request.Present | src/index.ts:155 | the entries of the merged object whose value is a non-empty string, in order |
| Request.PresentGet | src/index.ts:155 | the filter drops exactly the null, undefined and empty-string values |
| Request.QueryTargetsFirst | src/index.ts:149-150 | the query opens with one `to` pair per target, in target order |
| Request.TranslateQuery | src/index.ts:149-156 | the query pairs: `to` per target, then the merged base and `translateOptions` entries with null or empty values dropped |
| Request.QueryBaseOrder | src/index.ts:151-154 | `api-version` and `from` keep the first two places of the merged object whatever `translateOptions` adds |
| Request.QueryParam | src/index.ts:149-156 | for every name other than `to`, the query carries the `translateOptions` value if given, else the built-in one, and nothing when that value is missing or empty |
| Request.NoFromWhenUnset | src/index.ts:106-155 | an unset or unresolvable source sends no `from` pair unless `translateOptions` supplies one |
| Request.LiftGetLast | src/index.ts:215-217 | caller headers keep their names and order, and each name's last value |
| Request.Headers | src/index.ts:203-220 | the header object `buildHeaders` returns, built by the same assignments |
| Request.FetchConfig | src/index.ts:141-146 | the request config: headers, POST, the JSON body, then `fetchOptions` spread over them |
| Request.HeadersPrecedence | src/index.ts:203-220 | `fetchOptions.headers` beat the authorization (caller object, else "Bearer " + token), which sits beside the default User-Agent and JSON content type; no other header exists |
| Request.BuildRequest | src/index.ts:141-156 | the query and the request config `translate` hands to `fetch` |
| Request.RequestShape | src/index.ts:133-146 | the body has one `{Text}` per segment in order and the method is POST unless `fetchOptions` overrides them; `fetchOptions.headers` replace all built headers, dropping Authorization when they lack it |
| Client.ExpiresAt | src/index.ts:70 | the stored expiry `exp * 1000`, with a missing or non-numeric claim read as 0 by the fallback to 0 at src/index.ts:84 |
| Client.AuthUserAgent | src/index.ts:61 | the caller's user agent, or the default when it is missing or empty |
| Client.IsOk | src/index.ts:163 | `response.ok`: a status from 200 to 299 |
| Client.IsTokenExpired | src/index.ts:82-86 | a token is reused exactly when one is stored and at least 60000 ms remain before its expiry |
| Client.EnsureAuth | src/index.ts:183-196 | auth headers bypass everything; no stored promise starts a fetch; a fresh fulfilled token sends nothing; a rejected promise fails with no fetch; at most two GETs, all with the caller's user agent; success leaves a token, failure a rejected promise; a failed first fetch, or a failed refresh of an expired token, makes the call fail after one GET, leaving the old config with a rejected promise |
| Client.StickyFailure | src/index.ts:185-189 | once an auth fetch has failed, every later call without auth headers fails, sends nothing and changes nothing |
| Client.AuthHeadersBypass | src/index.ts:184 | calls carrying `authenticationHeaders` never touch the token state or the network |
| Client.TokenReused | src/index.ts:185-194 | a token fetched by the first call is reused by a later call within its lifetime: two calls, one auth GET |
| Client.AfterFetch | src/index.ts:55-76 | after an auth fetch a promise is always stored; it is fulfilled exactly when the token was obtained, which then is stored with expiry `exp * 1000`; a failed fetch leaves the old config |
| Client.ExpiredTokenAccepted | src/index.ts:191-194 | the expiry is re-checked once: whatever the state, when the token after the first await is expired, the refreshed token is accepted and stored even if it is already expired, and the call succeeds |
| Client.ErrorMessage | src/index.ts:165-168 | the `message` of each error the call can throw; the request-failure format is stated by `Client.ReplyOutcome` |
| Client.ReplyOutcome | src/index.ts:158-176 | the call yields results exactly for a 2xx JSON reply; another status with a JSON body throws `Request failed with status <status>: <statusText>\n<body>`; a network error or a body that is not JSON is re-thrown unchanged; nothing yields undefined |
| Client.TranslateSpec | src/index.ts:96-177 | the whole call as a function of the token state and the replies; its properties are the lemmas below |
| Client.TranslatePhases | src/index.ts:96-177 | the order of `translate`: empty text does nothing; an unsupported language fails with no request and no auth GET; a failed authentication sends no request; only a sent request lets the reply decide; at most two auth GETs |
| Client.AuthenticatedSends | src/index.ts:139-176 | a non-empty call that passes the language check and authenticates sends exactly the request assembled from its arguments and the stored token, and the reply settles it; otherwise it fails with the auth error and sends nothing |
| Client.FirstCallSends | src/index.ts:139-176 | the first call with a token valid for 60 s more sends one auth GET, then the request with `Authorization: Bearer <token>` and one `{Text}` per segment, and the reply settles it |
| Client.NeverUnsupported | src/index.ts:106-131 | with "en" supported, `translate` never throws the unsupported-language error |
| Client.TranslateAfterAuthFailure | src/index.ts:139-189 | after an auth failure (and with "en" in the table), every non-empty `translate` without auth headers fails with the auth error, sends nothing and leaves the state as it was |
| Client.AutoDetectSendsNoFrom | src/index.ts:106-155 | an "auto-detect" source (any case) sends no `from` pair unless `translateOptions` sets one |
| Client.Client.constructor | src/index.ts:47-48 | the token state starts with no config and no promise |
| Client.Client.FetchGlobalConfig | src/index.ts:55-76 | the auth GET carries the caller's user agent, else the default; success stores the token with `exp * 1000`; failure keeps the old config and leaves a rejected promise |
| Client.Client.EnsureAuthentication | src/index.ts:183-196 | the method's new state, result and auth GETs are exactly those of `EnsureAuth`; success without auth headers leaves a stored token |
| Client.Client.BuildHeaders | src/index.ts:203-220 | the headers built step by step equal `Headers` for the stored token |
| Client.Client.CheckLanguages | src/index.ts:106-131 | the normalised source, targets and error equal `NormalizeFrom`, `NormalizeTargets` and `LanguageError` |
| Client.Client.Translate | src/index.ts:96-177 | outcome, request, auth GETs and new token state are exactly those of `TranslateSpec` |
| GenerateLangs.IsIdentifier | scripts/generate-langs.js:32 | the key matches `^[a-zA-Z_$][a-zA-Z0-9_$]*$` |
| GenerateLangs.FormatKey | scripts/generate-langs.js:32 | the key is left bare exactly when it matches the identifier pattern, else it is JSON-quoted |
| GenerateLangs.EntryLine | scripts/generate-langs.js:33 | one entry: a tab, the formatted key, ": " and the JSON value |
| GenerateLangs.Escaped | scripts/generate-langs.js:32-33 | escaping never shortens a string and leaves no raw control character |
| GenerateLangs.JsonString | scripts/generate-langs.js:32-33 | a JSON string is quoted at both ends |
| GenerateLangs.UnescapeEscaped | scripts/generate-langs.js:32-33 | decoding the escapes of RFC 8259 section 7 gives back the original string |
| GenerateLangs.JsonStringRoundTrip | scripts/generate-langs.js:32-33 | parsing the JSON string of a value gives the value back |
| GenerateLangs.FormatKeyRoundTrip | scripts/generate-langs.js:32 | a key is written bare exactly when it matches `^[a-zA-Z_$][a-zA-Z0-9_$]*$`, and either way reads back as the same key |
| GenerateLangs.EntryLineSingle | scripts/generate-langs.js:33 | each entry is written on one line |
| GenerateLangs.Stringify | scripts/generate-langs.js:27-38 | split at newlines, the output is "{", then one line per entry in key order, each but the last ending in ",", then "}"; an empty object gives "{", "", "}" |
| GenerateLangs.StringifyLayout | scripts/generate-langs.js:27-38 | the output opens with "{\n" and closes with "\n}"; an empty object gives "{\n\n}" |
| GenerateLangs.StringifyLineCount | scripts/generate-langs.js:27-38 | the output holds one more newline than there are entries (two when empty), so there is one line per entry |
| GenerateLangs.NamesOf | scripts/generate-langs.js:55-62 | the map has the provider's codes in the provider's order |
| GenerateLangs.BuildLangMap | scripts/generate-langs.js:55-62 | the `reduce`, assigning entry by entry, builds exactly the projection code → English name |
| GenerateLangs.LangMapContents | scripts/generate-langs.js:55-62 | the map has exactly the provider's codes, each mapped to its item's English name |

## Left out

- Network I/O is not modelled. The auth GET's result and the translate reply are parameters.
  URL building and the `fetch` calls themselves are left out, and so is
  `fs.writeFileSync` in the generator.
- Console output (`console.error`, `console.log`) is not modelled.
- JWT decoding is reduced to its result. The split on ".", base64 decoding and
  `JSON.parse` are replaced by an optional `exp` claim. A malformed token becomes a failed
  fetch.
- `exp * 1000` uses unbounded integers. JavaScript floating point and fractional `exp`
  values are not modelled.
- Concurrency is not modelled. Calls run one after another, so the pending-promise state
  shared by overlapping calls is not represented.
- The clock is the parameter `now`.
- `toLowerCase` is ASCII lower-casing. Full Unicode case mapping is not modelled.
- The JavaScript property lookup `LANGS[lang]` also sees inherited properties such as
  `"constructor"`. Only own entries are modelled.
- JavaScript orders integer-like object keys first. The model keeps insertion order.
- `src/config.json` and `src/lib/langs.ts` are not part of this model. Their contents are
  the `defaultUserAgent` parameter and the table parameter.
- Only string `translateOptions` values are modelled, plus null/undefined. Other values
  are stringified by `URLSearchParams`.
- Only `headers`, `method` and `body` of `fetchOptions` are modelled.
- Headers given as a `Headers` object or as an array are not modelled.
- A property explicitly set to `undefined` is treated as absent.
- The serialisation that `fetch` applies to the object-valued `Authorization` header is
  not modelled.
- The query string's URL encoding is not modelled. The query is the list of pairs.
- `JSON.stringify` of the request body and `JSON.parse` of the reply are not modelled. The
  body is the list of `{Text}` items. The reply's JSON is carried as its serialised text.
- `JSON.stringify` escapes lone UTF-16 surrogates. Dafny strings hold Unicode scalar
  values, so there are no lone surrogates to escape.
- The type declarations (`index.d.ts`) and the tests are not modelled.
- Lang.ResolveCaseInsensitive: stated only for collision-free tables. On other tables the
  exact-key fast path can disagree with the case-insensitive scan.
- Lang.ResolveDisplayName: stated only for collision-free tables. An earlier entry whose
  code or name collides with the display name wins otherwise.
- Lang.ResolveIsScan: stated only for collision-free tables, for the same reason.
- Lang.IsSupported: the equivalence with a successful lookup is stated only for tables with
  non-empty keys. A key "" is resolvable but falsy.
- GenerateLangs.BuildLangMap: requires distinct codes, which a JavaScript object always
  has.

=== FILE: client.dfy ===
/**
 * The token lifecycle and the `translate` entry point of src/index.ts. The module-level
 * `globalConfig` and `globalConfigPromise` are the fields of a `Client`; the outcome of each
 * auth fetch, the reply of the translate endpoint and the clock are parameters.
 */
module Client {
  import opened Wrappers
  import opened Strings
  import opened Records
  import opened Lang
  import opened Request

  datatype GlobalConfig = GlobalConfig(token: string, tokenExpiresAt: int)

  /** The stored `globalConfigPromise`: none yet, or a fetch that fulfilled or rejected. */
  datatype PromiseState = NoPromise | Fulfilled | Rejected

  datatype AuthState = AuthState(config: Option<GlobalConfig>, promise: PromiseState)

  const Initial := AuthState(None, NoPromise)

  /**
   * The outcome of one auth fetch: the JWT with its `exp` claim (None when the claim is not
   * a number), or a failure anywhere in fetching, splitting, decoding or parsing it.
   */
  datatype AuthFetch = Token(jwt: string, exp: Option<int>) | FetchFailed

  /** Safety margin before expiry, in milliseconds. */
  const ExpiryMarginMs := 60000

  /** `jwtPayload.exp * 1000`; a non-numeric claim gives NaN, which `|| 0` later reads as 0. */
  function ExpiresAt(exp: Option<int>): int {
    if exp.Some? then exp.value * 1000 else 0
  }

  /** `isTokenExpired`: a stored token is reused only with at least 60 s left before expiry. */
  function IsTokenExpired(config: Option<GlobalConfig>, now: int): (r: bool)
    ensures !r <==> config.Some? && now + ExpiryMarginMs <= config.value.tokenExpiresAt
  {
    config.None? || config.value.tokenExpiresAt - now < ExpiryMarginMs
  }

  /** `userAgent || DEFAULT_USER_AGENT`: an empty user agent also falls back. */
  function AuthUserAgent(defaultUserAgent: string, userAgent: Option<string>): string {
    if userAgent.Some? && userAgent.value != "" then userAgent.value else defaultUserAgent
  }

  /** The state once a `fetchGlobalConfig` promise is stored and has settled. */
  function AfterFetch(s: AuthState, outcome: AuthFetch): (r: AuthState)
    ensures r.promise != NoPromise
    ensures r.promise == Fulfilled <==> outcome.Token?
    ensures outcome.Token? ==> r.config == Some(GlobalConfig(outcome.jwt, ExpiresAt(outcome.exp)))
    ensures outcome.FetchFailed? ==> r.config == s.config
  {
    match outcome
    case Token(jwt, exp) => AuthState(Some(GlobalConfig(jwt, ExpiresAt(exp))), Fulfilled)
    case FetchFailed => AuthState(s.config, Rejected)
  }

  /** The new state, whether the call went through, and the User-Agent of each auth GET sent. */
  datatype AuthResult = AuthResult(state: AuthState, ok: bool, requests: seq<string>)

  /**
   * `ensureAuthentication` as a specification, one call at a time. `initial` is the outcome
   * of the fetch started when no promise is stored, `refresh` that of the fetch started
   * when the token is expired after the await.
   */
  function EnsureAuth(s: AuthState, hasAuthHeaders: bool, userAgent: string, now: int,
                      initial: AuthFetch, refresh: AuthFetch): (r: AuthResult)
    ensures |r.requests| <= 2
    ensures forall i :: 0 <= i < |r.requests| ==> r.requests[i] == userAgent
    ensures hasAuthHeaders ==> r == AuthResult(s, true, [])
    ensures !hasAuthHeaders && s.promise == NoPromise ==> |r.requests| >= 1
    ensures !hasAuthHeaders && s.promise == Fulfilled && !IsTokenExpired(s.config, now) ==>
              r == AuthResult(s, true, [])
    ensures !hasAuthHeaders && s.promise == Rejected ==> r == AuthResult(s, false, [])
    ensures r.ok && !hasAuthHeaders ==> r.state.config.Some? && r.state.promise == Fulfilled
    ensures !r.ok ==> r.state.promise == Rejected
    ensures !hasAuthHeaders && s.promise == NoPromise && initial.FetchFailed? ==>
              r == AuthResult(AuthState(s.config, Rejected), false, [userAgent])
    ensures !hasAuthHeaders && s.promise == Fulfilled && IsTokenExpired(s.config, now) && refresh.FetchFailed? ==>
              r == AuthResult(AuthState(s.config, Rejected), false, [userAgent])
  {
    if hasAuthHeaders then AuthResult(s, true, [])
    else
      var s1 := if s.promise == NoPromise then AfterFetch(s, initial) else s;
      assert s1.promise != NoPromise;
      var sent := if s.promise == NoPromise then [userAgent] else [];
      if s1.promise == Rejected then AuthResult(s1, false, sent)
      else if IsTokenExpired(s1.config, now) then
        var s2 := AfterFetch(s1, refresh);
        AuthResult(s2, s2.promise == Fulfilled, sent + [userAgent])
      else AuthResult(s1, true, sent)
  }

  /** One call of `ensureAuthentication` with everything that call depends on. */
  datatype AuthCall = AuthCall(hasAuthHeaders: bool, userAgent: string, now: int,
                               initial: AuthFetch, refresh: AuthFetch)

  /** The results of a sequence of calls, each starting from the state the last one left. */
  function RunAuth(s: AuthState, calls: seq<AuthCall>): (rs: seq<AuthResult>)
    ensures |rs| == |calls|
    decreases |calls|
  {
    if calls == [] then []
    else
      var c := calls[0];
      var r := EnsureAuth(s, c.hasAuthHeaders, c.userAgent, c.now, c.initial, c.refresh);
      [r] + RunAuth(r.state, calls[1..])
  }

  /**
   * A failed auth fetch sticks: the rejected promise is never cleared, so every later call
   * without `authenticationHeaders` fails at the await, starts no fetch and changes nothing.
   */
  lemma {:induction false} StickyFailure(s: AuthState, calls: seq<AuthCall>)
    requires s.promise == Rejected
    requires forall i :: 0 <= i < |calls| ==> !calls[i].hasAuthHeaders
    ensures forall i :: 0 <= i < |calls| ==> RunAuth(s, calls)[i] == AuthResult(s, false, [])
    decreases |calls|
  {
    if calls != [] {
      StickyFailure(s, calls[1..]);
      var rs := RunAuth(s, calls);
      forall i | 0 <= i < |calls| ensures rs[i] == AuthResult(s, false, []) {
        if i > 0 {
          assert rs[i] == RunAuth(s, calls[1..])[i - 1];
        }
      }
    }
  }

  /** Calls that carry their own `authenticationHeaders` never touch the token state. */
  lemma {:induction false} AuthHeadersBypass(s: AuthState, calls: seq<AuthCall>)
    requires forall i :: 0 <= i < |calls| ==> calls[i].hasAuthHeaders
    ensures forall i :: 0 <= i < |calls| ==> RunAuth(s, calls)[i] == AuthResult(s, true, [])
    decreases |calls|
  {
    if calls != [] {
      AuthHeadersBypass(s, calls[1..]);
      var rs := RunAuth(s, calls);
      forall i | 0 <= i < |calls| ensures rs[i] == AuthResult(s, true, []) {
        if i > 0 {
          assert rs[i] == RunAuth(s, calls[1..])[i - 1];
        }
      }
    }
  }

  /**
   * A token fetched by the first call is reused: a second call made while the token still
   * has 60 s to live sends no auth request, so the two calls send exactly one.
   */
  lemma TokenReused(c1: AuthCall, c2: AuthCall, jwt: string, exp: int)
    requires !c1.hasAuthHeaders && !c2.hasAuthHeaders
    requires c1.initial == Token(jwt, Some(exp))
    requires c1.now <= c2.now && c2.now + ExpiryMarginMs <= exp * 1000
    ensures var rs := RunAuth(Initial, [c1, c2]);
            rs[0].ok && rs[1].ok && |rs[0].requests| + |rs[1].requests| == 1
  {
    var r1 := EnsureAuth(Initial, false, c1.userAgent, c1.now, c1.initial, c1.refresh);
    assert r1.state == AuthState(Some(GlobalConfig(jwt, exp * 1000)), Fulfilled);
    assert RunAuth(Initial, [c1, c2]) == [r1] + RunAuth(r1.state, [c2]);
  }

  /**
   * The re-check refreshes only once: when the stored token is expired after the first
   * await, a successful refresh is accepted as it is, even when that token is itself expired.
   */
  lemma ExpiredTokenAccepted(s: AuthState, userAgent: string, now: int, initial: AuthFetch,
                             jwt: string, exp: Option<int>)
    requires var s1 := if s.promise == NoPromise then AfterFetch(s, initial) else s;
             s1.promise == Fulfilled && IsTokenExpired(s1.config, now)
    ensures var r := EnsureAuth(s, false, userAgent, now, initial, Token(jwt, exp));
            r.ok && r.state == AuthState(Some(GlobalConfig(jwt, ExpiresAt(exp))), Fulfilled)
  {
  }

  /** The reply of the translate endpoint: a network failure, or a status and a JSON body. */
  datatype Reply = NetworkError(message: string) | Response(status: nat, statusText: string, body: JsonBody)

  /** The response body: JSON (carried as `JSON.stringify(body, null, 2)` prints it) or not JSON. */
  datatype JsonBody = Json(serialized: string) | NotJson(parseError: string)

  datatype TranslateError =
    | UnsupportedLanguage(message: string)
    | AuthenticationFailed
    | RequestFailed(status: nat, statusText: string, body: string)
    | Rethrown(message: string)

  /** What `translate` settles with: `undefined`, the parsed results, or a thrown error. */
  datatype Outcome = NoResult | Results(json: string) | Failed(error: TranslateError)

  /** The `message` of the thrown `Error`. */
  function ErrorMessage(e: TranslateError): string {
    match e
    case UnsupportedLanguage(m) => m
    case AuthenticationFailed => "Failed to fetch auth token"
    case RequestFailed(status, statusText, body) =>
      "Request failed with status " + NatToString(status) + ": " + statusText + "\n" + body
    case Rethrown(m) => m
  }

  /** `response.ok` holds for the 2xx statuses. */
  predicate IsOk(status: nat) {
    200 <= status <= 299
  }

  /** How the reply settles `translate`: ok gives the parsed body, any other status an error
      carrying status, status text and body; a network or JSON failure is re-thrown. */
  function ReplyOutcome(reply: Reply): (o: Outcome)
    ensures o != NoResult
    ensures o.Results? <==> reply.Response? && IsOk(reply.status) && reply.body.Json?
    ensures reply.Response? && !IsOk(reply.status) && reply.body.Json? ==>
              o == Failed(RequestFailed(reply.status, reply.statusText, reply.body.serialized))
    ensures reply.Response? && !IsOk(reply.status) && reply.body.Json? ==>
              ErrorMessage(o.error) == "Request failed with status " + NatToString(reply.status) + ": " +
                                       reply.statusText + "\n" + reply.body.serialized
    ensures reply.NetworkError? ==> o == Failed(Rethrown(reply.message))
    ensures reply.Response? && reply.body.NotJson? ==> o == Failed(Rethrown(reply.body.parseError))
  {
    match reply
    case NetworkError(m) => Failed(Rethrown(m))
    case Response(status, statusText, body) =>
      match body
      case NotJson(m) => Failed(Rethrown(m))
      case Json(text) =>
        if IsOk(status) then Results(text) else Failed(RequestFailed(status, statusText, text))
  }

  function TokenOf(config: Option<GlobalConfig>): Option<string> {
    if config.Some? then Some(config.value.token) else None
  }

  /** Everything one `translate` call yields: its outcome, the request it sent to the
      translate endpoint, the User-Agent of each auth GET, and the token state it leaves. */
  datatype TranslateResult = TranslateResult(outcome: Outcome, request: Option<Request>,
                                             authRequests: seq<string>, state: AuthState)

  /**
   * `translate` as a specification over the token state `s`: empty text is a no-op; an
   * unsupported language fails before any network activity; then authentication; then the
   * request is sent and the reply settles the call.
   */
  function TranslateSpec(defaultUserAgent: string, s: AuthState, table: LangTable, text: TextInput,
                         from: Option<string>, to: TargetInput, options: Option<TranslateOptions>,
                         now: int, initial: AuthFetch, refresh: AuthFetch, reply: Reply)
    : (r: TranslateResult)
  {
    if IsEmptyText(text) then TranslateResult(NoResult, None, [], s)
    else if LanguageError(table, from, to).Some? then
      TranslateResult(Failed(UnsupportedLanguage(LanguageError(table, from, to).value)), None, [], s)
    else
      var opts := options.GetOr(NoOptions);
      var a := EnsureAuth(s, opts.authenticationHeaders.Some?, AuthUserAgent(defaultUserAgent, opts.userAgent),
                          now, initial, refresh);
      if !a.ok then TranslateResult(Failed(AuthenticationFailed), None, a.requests, a.state)
      else
        TranslateResult(ReplyOutcome(reply),
                        Some(BuildRequest(defaultUserAgent, table, text, from, to, opts, TokenOf(a.state.config))),
                        a.requests, a.state)
  }

  /** The phases of `translate` in order: empty text is a no-op; an unsupported language fails
      with no request and no auth fetch; a failed authentication sends no request; only a sent
      request lets the reply decide the outcome; at most two auth fetches. */
  lemma TranslatePhases(defaultUserAgent: string, s: AuthState, table: LangTable, text: TextInput,
                        from: Option<string>, to: TargetInput, options: Option<TranslateOptions>,
                        now: int, initial: AuthFetch, refresh: AuthFetch, reply: Reply)
    ensures var r := TranslateSpec(defaultUserAgent, s, table, text, from, to, options, now, initial, refresh, reply);
            && (IsEmptyText(text) ==> r == TranslateResult(NoResult, None, [], s))
            && (r.outcome.Failed? && r.outcome.error.UnsupportedLanguage? ==>
                  r.request.None? && r.authRequests == [] && r.state == s)
            && (r.outcome == Failed(AuthenticationFailed) ==> r.request.None? && r.state.promise == Rejected)
            && (r.request.Some? ==> r.outcome == ReplyOutcome(reply) && !IsEmptyText(text))
            && |r.authRequests| <= 2
  {
  }

  /** A non-empty call that passes the language check and authenticates sends exactly the
      request `BuildRequest` assembles from the stored token, and the reply settles it; one
      that does not authenticate fails with the authentication error and sends nothing. */
  lemma AuthenticatedSends(defaultUserAgent: string, s: AuthState, table: LangTable, text: TextInput,
                           from: Option<string>, to: TargetInput, options: Option<TranslateOptions>,
                           now: int, initial: AuthFetch, refresh: AuthFetch, reply: Reply)
    requires !IsEmptyText(text) && LanguageError(table, from, to).None?
    ensures var opts := options.GetOr(NoOptions);
            var a := EnsureAuth(s, opts.authenticationHeaders.Some?, AuthUserAgent(defaultUserAgent, opts.userAgent),
                                now, initial, refresh);
            var r := TranslateSpec(defaultUserAgent, s, table, text, from, to, options, now, initial, refresh, reply);
            && (a.ok ==>
                  && (opts.authenticationHeaders.Some? || a.state.config.Some?)
                  && r == TranslateResult(ReplyOutcome(reply),
                                          Some(BuildRequest(defaultUserAgent, table, text, from, to, opts,
                                                            TokenOf(a.state.config))),
                                          a.requests, a.state))
            && (!a.ok ==> r == TranslateResult(Failed(AuthenticationFailed), None, a.requests, a.state))
  {
  }

  /** The first call, with a token that has at least 60 s left, sends one auth GET and then
      the translate request carrying "Bearer " + the token and one `{Text}` per segment. */
  lemma FirstCallSends(defaultUserAgent: string, table: LangTable, text: TextInput, from: Option<string>,
                       to: TargetInput, now: int, jwt: string, exp: int, refresh: AuthFetch, reply: Reply)
    requires !IsEmptyText(text) && NonEmptyKeys(table) && IsSupported(table, DefaultTarget)
    requires now + ExpiryMarginMs <= exp * 1000
    ensures var r := TranslateSpec(defaultUserAgent, Initial, table, text, from, to, None, now,
                                   Token(jwt, Some(exp)), refresh, reply);
            && r.request.Some?
            && r.outcome == ReplyOutcome(reply)
            && r.authRequests == [defaultUserAgent]
            && r.state == AuthState(Some(GlobalConfig(jwt, exp * 1000)), Fulfilled)
            && Get(r.request.value.init.headers, "Authorization") == Some(Plain("Bearer " + jwt))
            && r.request.value.init.body == Items(BuildBody(Segments(text)))
  {
    UnsupportedUnreachable(table, from, to);
    HeadersPrecedence(defaultUserAgent, NoOptions, Some(jwt), "Authorization");
  }

  /** With "en" in the table (and non-empty keys) `translate` never throws the
      unsupported-language error, whatever languages it is given. */
  lemma NeverUnsupported(defaultUserAgent: string, s: AuthState, table: LangTable, text: TextInput,
                         from: Option<string>, to: TargetInput, options: Option<TranslateOptions>,
                         now: int, initial: AuthFetch, refresh: AuthFetch, reply: Reply)
    requires NonEmptyKeys(table) && IsSupported(table, DefaultTarget)
    ensures var r := TranslateSpec(defaultUserAgent, s, table, text, from, to, options, now, initial, refresh, reply);
            !(r.outcome.Failed? && r.outcome.error.UnsupportedLanguage?)
  {
    UnsupportedUnreachable(table, from, to);
  }

  /** After an auth fetch has failed, every `translate` that needs the token fails with the
      authentication error, sends nothing and leaves the state as it was. */
  lemma TranslateAfterAuthFailure(defaultUserAgent: string, s: AuthState, table: LangTable, text: TextInput,
                                  from: Option<string>, to: TargetInput, options: Option<TranslateOptions>,
                                  now: int, initial: AuthFetch, refresh: AuthFetch, reply: Reply)
    requires s.promise == Rejected && !IsEmptyText(text)
    requires NonEmptyKeys(table) && IsSupported(table, DefaultTarget)
    requires options.None? || options.value.authenticationHeaders.None?
    ensures TranslateSpec(defaultUserAgent, s, table, text, from, to, options, now, initial, refresh, reply)
            == TranslateResult(Failed(AuthenticationFailed), None, [], s)
  {
    UnsupportedUnreachable(table, from, to);
  }

  /** An "auto-detect" source (in any case) sends no `from` pair unless `translateOptions` sets one. */
  lemma AutoDetectSendsNoFrom(defaultUserAgent: string, s: AuthState, table: LangTable, text: TextInput,
                              from: string, to: TargetInput, options: TranslateOptions,
                              now: int, initial: AuthFetch, refresh: AuthFetch, reply: Reply)
    requires Lower(from) == AutoDetect
    requires options.translateOptions.None? || "from" !in Keys(options.translateOptions.value)
    ensures var r := TranslateSpec(defaultUserAgent, s, table, text, Some(from), to, Some(options),
                                   now, initial, refresh, reply);
            r.request.Some? ==> "from" !in Keys(r.request.value.query)
  {
    var extra := options.translateOptions.GetOr([]);
    assert options.translateOptions == Some(extra) || options.translateOptions.None?;
    NoFromWhenUnset(table, Some(from), NormalizeTargets(table, to), extra);
    assert TranslateQuery(NormalizeTargets(table, to), None, options.translateOptions) ==
           TranslateQuery(NormalizeTargets(table, to), None, Some(extra));
  }

  /** The process-wide token state of src/index.ts and the calls that use it. */
  class Client {
    var globalConfig: Option<GlobalConfig>
    var globalConfigPromise: PromiseState
    /** `DEFAULT_USER_AGENT`, read from src/config.json in the source. */
    const defaultUserAgent: string

    function State(): AuthState
      reads this
    {
      AuthState(globalConfig, globalConfigPromise)
    }

    constructor (defaultUserAgent: string)
      ensures State() == Initial && this.defaultUserAgent == defaultUserAgent
    {
      this.defaultUserAgent := defaultUserAgent;
      globalConfig := None;
      globalConfigPromise := NoPromise;
    }

    /** `fetchGlobalConfig`, stored as the new promise and settled: the GET it sends carries
        the returned User-Agent; success replaces the config, failure keeps it. */
    method FetchGlobalConfig(userAgent: Option<string>, outcome: AuthFetch) returns (sentUserAgent: string)
      modifies this
      ensures sentUserAgent == AuthUserAgent(defaultUserAgent, userAgent)
      ensures State() == AfterFetch(old(State()), outcome)
      ensures outcome.Token? ==> globalConfig == Some(GlobalConfig(outcome.jwt, ExpiresAt(outcome.exp)))
      ensures outcome.FetchFailed? ==> globalConfig == old(globalConfig) && globalConfigPromise == Rejected
    {
      sentUserAgent := AuthUserAgent(defaultUserAgent, userAgent);
      match outcome {
        case Token(jwt, exp) =>
          globalConfig := Some(GlobalConfig(jwt, ExpiresAt(exp)));
          globalConfigPromise := Fulfilled;
        case FetchFailed =>
          globalConfigPromise := Rejected;
      }
    }

    /** `ensureAuthentication`: returns whether the await went through and the auth GETs sent. */
    method EnsureAuthentication(options: TranslateOptions, now: int, initial: AuthFetch, refresh: AuthFetch)
      returns (ok: bool, requests: seq<string>)
      modifies this
      ensures AuthResult(State(), ok, requests) ==
              EnsureAuth(old(State()), options.authenticationHeaders.Some?,
                         AuthUserAgent(defaultUserAgent, options.userAgent), now, initial, refresh)
      ensures |requests| <= 2
      ensures ok && options.authenticationHeaders.None? ==> globalConfig.Some?
    {
      requests := [];
      if options.authenticationHeaders.None? {
        if globalConfigPromise == NoPromise {
          var sent := FetchGlobalConfig(options.userAgent, initial);
          requests := requests + [sent];
        }
        if globalConfigPromise == Rejected {
          return false, requests;
        }
        if IsTokenExpired(globalConfig, now) {
          var sent := FetchGlobalConfig(options.userAgent, refresh);
          requests := requests + [sent];
          if globalConfigPromise == Rejected {
            return false, requests;
          }
        }
      }
      return true, requests;
    }

    /** `buildHeaders`: defaults, then the authorization, then `fetchOptions.headers` assigned over them. */
    method BuildHeaders(options: TranslateOptions) returns (headers: Record<HeaderValue>)
      requires options.authenticationHeaders.Some? || globalConfig.Some?
      ensures headers == Headers(defaultUserAgent, options, TokenOf(globalConfig))
    {
      headers := [("User-Agent", Plain(defaultUserAgent)), ("Content-Type", Plain("application/json"))];
      if options.authenticationHeaders.Some? {
        headers := Set(headers, "Authorization", Object(options.authenticationHeaders.value));
      } else {
        headers := Set(headers, "Authorization", Plain("Bearer " + globalConfig.value.token));
      }
      if options.fetchOptions.Some? && options.fetchOptions.value.headers.Some? {
        headers := Assign(headers, Lift(options.fetchOptions.value.headers.value));
      }
    }

    /** The language phase of `translate`: normalises the source and the targets and reports
        the ones the table does not support, before any network activity. */
    method CheckLanguages(table: LangTable, from: Option<string>, to: TargetInput)
      returns (source: Option<string>, targets: seq<string>, unsupported: Option<string>)
      ensures source == NormalizeFrom(table, from)
      ensures targets == NormalizeTargets(table, to)
      ensures unsupported == LanguageError(table, from, to)
    {
      source := from;
      if source.Some? && Lower(source.value) == AutoDetect {
        source := None;
      }
      source := GetLangCode(table, source);
      targets := TargetList(to);
      targets := seq(|targets|, i requires 0 <= i < |targets| => ResolveTarget(table, targets[i]));
      if targets == [] {
        targets := [DefaultTarget];
      }
      unsupported := SupportError(table, source, targets);
    }

    /**
     * `translate`: empty text is a no-op; the languages are normalised and checked; the
     * token is ensured; then the request is built and the reply settles the call. Returns
     * the outcome, the request sent to the translate endpoint (if any) and the auth GETs.
     */
    method Translate(table: LangTable, text: TextInput, from: Option<string>, to: TargetInput,
                     options: Option<TranslateOptions>, now: int,
                     initial: AuthFetch, refresh: AuthFetch, reply: Reply)
      returns (outcome: Outcome, request: Option<Request>, authRequests: seq<string>)
      modifies this
      ensures TranslateResult(outcome, request, authRequests, State()) ==
              TranslateSpec(defaultUserAgent, old(State()), table, text, from, to, options,
                            now, initial, refresh, reply)
    {
      ghost var spec := TranslateSpec(defaultUserAgent, State(), table, text, from, to, options,
                                      now, initial, refresh, reply);
      if IsEmptyText(text) {
        return NoResult, None, [];
      }
      var source, targets, unsupported := CheckLanguages(table, from, to);
      if unsupported.Some? {
        return Failed(UnsupportedLanguage(unsupported.value)), None, [];
      }
      var segments := Segments(text);
      var opts := options.GetOr(NoOptions);
      ghost var a := EnsureAuth(State(), opts.authenticationHeaders.Some?,
                                AuthUserAgent(defaultUserAgent, opts.userAgent), now, initial, refresh);
      assert spec.authRequests == a.requests && spec.state == a.state;
      var ok;
      ok, authRequests := EnsureAuthentication(opts, now, initial, refresh);
      assert ok == a.ok && authRequests == a.requests && State() == a.state;
      if !ok {
        return Failed(AuthenticationFailed), None, authRequests;
      }
      var headers := BuildHeaders(opts);
      var init := FetchConfig(headers, segments, opts.fetchOptions);
      var query := TranslateQuery(targets, source, opts.translateOptions);
      request := Some(Request(query, init));
      assert spec.request == request;
      outcome := ReplyOutcome(reply);
    }
  }
}

=== FILE: generate_langs.dfy ===
/**
 * The table generator of scripts/generate-langs.js: the projection of the provider's
 * language list to code -> English name, and its serialisation as an object literal with
 * identifier keys left bare.
 */
module GenerateLangs {
  import opened Wrappers
  import opened Strings
  import opened Records

  /** One entry of the provider's `translation` object. */
  datatype LanguageItem = LanguageItem(name: string, nativeName: string, dir: string)

  predicate IsIdentStart(c: char) {
    'a' <= c <= 'z' || 'A' <= c <= 'Z' || c == '_' || c == '$'
  }

  predicate IsIdentPart(c: char) {
    IsIdentStart(c) || '0' <= c <= '9'
  }

  /** `/^[a-zA-Z_$][a-zA-Z0-9_$]*$/.test(key)`. */
  predicate IsIdentifier(key: string) {
    |key| > 0 && IsIdentStart(key[0]) && forall i :: 1 <= i < |key| ==> IsIdentPart(key[i])
  }

  function HexDigit(d: nat): (c: char)
    requires d < 16
  {
    if d < 10 then ('0' as int + d) as char else ('a' as int + d - 10) as char
  }

  /** One character as `JSON.stringify` writes it inside a string (section 7 of RFC 8259). */
  function EscapeChar(c: char): string {
    if c == '"' then ['\\', '"']
    else if c == '\\' then ['\\', '\\']
    else if c as int == 8 then ['\\', 'b']
    else if c == '\t' then ['\\', 't']
    else if c == '\n' then ['\\', 'n']
    else if c as int == 12 then ['\\', 'f']
    else if c == '\r' then ['\\', 'r']
    else if c as int < 0x20 then ['\\', 'u', '0', '0', HexDigit(c as int / 16), HexDigit(c as int % 16)]
    else [c]
  }

  /** The escaped characters of a string: longer than or as long as the input, and free of
      raw control characters (so a JSON string never spans two lines). */
  function Escaped(s: string): (r: string)
    ensures |r| >= |s|
    ensures forall i :: 0 <= i < |r| ==> r[i] as int >= 0x20
    decreases |s|
  {
    if s == [] then [] else EscapeChar(s[0]) + Escaped(s[1..])
  }

  /** `JSON.stringify` of a string. */
  function JsonString(s: string): (r: string)
    ensures |r| >= |s| + 2 && r[0] == '"' && r[|r| - 1] == '"'
  {
    ['"'] + Escaped(s) + ['"']
  }

  /** The formatted key: bare when it is an identifier, else its JSON string. */
  function FormatKey(key: string): (r: string)
    ensures r == key <==> IsIdentifier(key)
  {
    if IsIdentifier(key) then key else JsonString(key)
  }

  /** One line of the output: tab, key, `": "`, the JSON string of the value. */
  function EntryLine(key: string, value: string): string {
    "\t" + FormatKey(key) + ": " + JsonString(value)
  }

  /** The entry lines of an object, in key order. */
  function EntryLines(obj: Record<string>): seq<string> {
    seq(|obj|, i requires 0 <= i < |obj| => EntryLine(obj[i].0, obj[i].1))
  }

  /** The entry lines with a comma after every line but the last. */
  function CommaLines(obj: Record<string>): seq<string> {
    seq(|obj|, i requires 0 <= i < |obj| =>
          if i + 1 < |obj| then EntryLine(obj[i].0, obj[i].1) + "," else EntryLine(obj[i].0, obj[i].1))
  }

  /** The lines the output is meant to have: "{", one line per entry in key order (a comma
      after all but the last), "}"; an empty object leaves one empty line between the braces. */
  function OutputLines(obj: Record<string>): seq<string> {
    if obj == [] then ["{", "", "}"] else ["{"] + CommaLines(obj) + ["}"]
  }

  /** `stringifyWithOptionalQuotes`: split at its newlines, the output is exactly `OutputLines`. */
  function Stringify(obj: Record<string>): (r: string)
    ensures Lines(r) == OutputLines(obj)
  {
    FramedLines(obj);
    "{\n" + Join(EntryLines(obj), ",\n") + "\n}"
  }

  lemma FramedLines(obj: Record<string>)
    ensures Lines("{\n" + Join(EntryLines(obj), ",\n") + "\n}") == OutputLines(obj)
  {
    var body := Join(EntryLines(obj), ",\n");
    var whole := "{\n" + body + "\n}";
    var mid := body + "\n" + "}";
    assert Lines(mid) == Lines(body) + ["}"] by {
      LinesConcat(body, "}");
      LinesSingle("}");
    }
    assert Lines(whole) == ["{"] + Lines(mid) by {
      assert whole == "{" + "\n" + mid;
      LinesConcat("{", mid);
      LinesSingle("{");
    }
    if obj == [] {
      assert body == "";
    } else {
      BodyLines(obj);
    }
  }

  /** The entries joined with ",\n", split at the newlines, are the comma-terminated lines. */
  lemma BodyLines(obj: Record<string>)
    requires obj != []
    ensures Lines(Join(EntryLines(obj), ",\n")) == CommaLines(obj)
  {
    var lines := EntryLines(obj);
    forall i | 0 <= i < |lines| ensures CountChar(lines[i], '\n') == 0 {
      EntryLineSingle(obj[i].0, obj[i].1);
    }
    LinesJoin(lines);
  }


  /** The projection `langCodeMap[langCode] = langItem.name`, entry by entry. */
  function NamesOf(translation: Record<LanguageItem>): (r: Record<string>)
    ensures Keys(r) == Keys(translation)
  {
    seq(|translation|, i requires 0 <= i < |translation| => (translation[i].0, translation[i].1.name))
  }

  /** The `reduce` at scripts/generate-langs.js:55-62, updating its accumulator in place. */
  method BuildLangMap(translation: Record<LanguageItem>) returns (langMap: Record<string>)
    requires DistinctKeys(translation)
    ensures langMap == NamesOf(translation)
  {
    langMap := [];
    for i := 0 to |translation|
      invariant langMap == NamesOf(translation[..i])
    {
      var (langCode, langItem) := translation[i];
      NamesOfStep(translation, i);
      langMap := Set(langMap, langCode, langItem.name);
    }
    assert translation[..|translation|] == translation;
  }

  /** Assigning the next entry's name appends it: no earlier entry has its code. */
  lemma NamesOfStep(translation: Record<LanguageItem>, i: nat)
    requires DistinctKeys(translation) && i < |translation|
    ensures Set(NamesOf(translation[..i]), translation[i].0, translation[i].1.name)
            == NamesOf(translation[..i + 1])
  {
    var prev := NamesOf(translation[..i]);
    assert translation[i].0 !in Keys(prev) by {
      forall j | 0 <= j < i ensures Keys(prev)[j] != translation[i].0 {
        assert prev[j].0 == translation[j].0;
      }
    }
    assert translation[..i + 1] == translation[..i] + [translation[i]];
  }

  /** `langMap` has exactly the codes of `translation`, in order, each mapped to its item's name. */
  lemma LangMapContents(translation: Record<LanguageItem>, i: nat)
    requires DistinctKeys(translation) && i < |translation|
    ensures Keys(NamesOf(translation)) == Keys(translation)
    ensures Get(NamesOf(translation), translation[i].0) == Some(translation[i].1.name)
  {
    var m := NamesOf(translation);
    assert DistinctKeys(m) by {
      forall a, b | 0 <= a < b < |m| ensures m[a].0 != m[b].0 {
        assert m[a].0 == translation[a].0 && m[b].0 == translation[b].0;
      }
    }
    GetDistinct(m, i);
  }

  // ---- Reading the output back -------------------------------------------------------

  function HexValue(c: char): nat {
    if '0' <= c <= '9' then c as int - '0' as int
    else if 'a' <= c <= 'f' then c as int - 'a' as int + 10
    else if 'A' <= c <= 'F' then c as int - 'A' as int + 10
    else 0
  }

  predicate IsHex(c: char) {
    '0' <= c <= '9' || 'a' <= c <= 'f' || 'A' <= c <= 'F'
  }

  function Prepend(c: char, rest: Option<string>): Option<string> {
    if rest.Some? then Some([c] + rest.value) else None
  }

  /** The characters of a JSON string between its quotes, decoded (section 7 of RFC 8259);
      None for text that is not a valid string body. */
  function Unescape(e: string): Option<string>
    decreases |e|
  {
    if e == [] then Some([])
    else if e[0] == '"' || e[0] as int < 0x20 then None
    else if e[0] != '\\' then Prepend(e[0], Unescape(e[1..]))
    else if |e| < 2 then None
    else if e[1] == '"' then Prepend('"', Unescape(e[2..]))
    else if e[1] == '\\' then Prepend('\\', Unescape(e[2..]))
    else if e[1] == '/' then Prepend('/', Unescape(e[2..]))
    else if e[1] == 'b' then Prepend(8 as char, Unescape(e[2..]))
    else if e[1] == 'f' then Prepend(12 as char, Unescape(e[2..]))
    else if e[1] == 'n' then Prepend('\n', Unescape(e[2..]))
    else if e[1] == 'r' then Prepend('\r', Unescape(e[2..]))
    else if e[1] == 't' then Prepend('\t', Unescape(e[2..]))
    else if e[1] == 'u' && |e| >= 6 && IsHex(e[2]) && IsHex(e[3]) && IsHex(e[4]) && IsHex(e[5]) then
      var n := ((HexValue(e[2]) * 16 + HexValue(e[3])) * 16 + HexValue(e[4])) * 16 + HexValue(e[5]);
      if n < 0xD800 || 0xE000 <= n then Prepend(n as char, Unescape(e[6..])) else None
    else None
  }

  /** `JSON.parse` of a JSON string literal. */
  function Unquote(q: string): Option<string> {
    if |q| >= 2 && q[0] == '"' && q[|q| - 1] == '"' then Unescape(q[1..|q| - 1]) else None
  }

  /** Reading a formatted key back: a quoted key is a JSON string, a bare one an identifier. */
  function ReadKey(f: string): Option<string> {
    if |f| > 0 && f[0] == '"' then Unquote(f)
    else if IsIdentifier(f) then Some(f)
    else None
  }

  lemma HexDigitValue(d: nat)
    requires d < 16
    ensures IsHex(HexDigit(d)) && HexValue(HexDigit(d)) == d
  {
  }

  lemma UnescapeChar(c: char, rest: string)
    ensures Unescape(EscapeChar(c) + rest) == Prepend(c, Unescape(rest))
  {
    var e := EscapeChar(c) + rest;
    if |EscapeChar(c)| == 2 {
      assert e[2..] == rest;
    } else if |EscapeChar(c)| == 6 {
      var n := c as int;
      HexDigitValue(n / 16);
      HexDigitValue(n % 16);
      assert e[6..] == rest;
      assert e[2] == '0' && e[3] == '0';
    } else {
      assert e[1..] == rest;
    }
  }

  /** Decoding the escaped characters gives the string back. */
  lemma {:induction false} UnescapeEscaped(s: string)
    ensures Unescape(Escaped(s)) == Some(s)
    decreases |s|
  {
    if s != [] {
      UnescapeChar(s[0], Escaped(s[1..]));
      UnescapeEscaped(s[1..]);
      assert [s[0]] + s[1..] == s;
    }
  }

  /** `JSON.parse(JSON.stringify(s)) == s` for strings. */
  lemma JsonStringRoundTrip(s: string)
    ensures Unquote(JsonString(s)) == Some(s)
  {
    var q := JsonString(s);
    assert q[1..|q| - 1] == Escaped(s);
    UnescapeEscaped(s);
  }

  /** A key is emitted bare exactly when it matches the identifier pattern, and either way
      it reads back as the same key. */
  lemma FormatKeyRoundTrip(key: string)
    ensures FormatKey(key) == key <==> IsIdentifier(key)
    ensures ReadKey(FormatKey(key)) == Some(key)
  {
    if IsIdentifier(key) {
      assert key[0] != '"';
    } else {
      JsonStringRoundTrip(key);
    }
  }

  lemma {:induction false} NoNewlineAt(r: string)
    requires forall i :: 0 <= i < |r| ==> r[i] as int >= 0x20
    ensures CountChar(r, '\n') == 0
    decreases |r|
  {
    if r != [] {
      NoNewlineAt(r[1..]);
    }
  }

  /** Each entry is written on a single line. */
  lemma EntryLineSingle(key: string, value: string)
    ensures CountChar(EntryLine(key, value), '\n') == 0
  {
    JsonStringSingle(value);
    if IsIdentifier(key) {
      assert forall i :: 0 <= i < |key| ==> key[i] as int >= 0x20 by {
        forall i | 0 <= i < |key| ensures key[i] as int >= 0x20 {
          if i > 0 { assert IsIdentPart(key[i]); }
        }
      }
      NoNewlineAt(key);
    } else {
      JsonStringSingle(key);
    }
    var k := FormatKey(key);
    CountCharConcat("\t", k, '\n');
    CountCharConcat("\t" + k, ": ", '\n');
    CountCharConcat("\t" + k + ": ", JsonString(value), '\n');
  }

  lemma JsonStringSingle(s: string)
    ensures CountChar(JsonString(s), '\n') == 0
  {
    NoNewlineAt(Escaped(s));
    CountCharConcat(['"'], Escaped(s), '\n');
    CountCharConcat(['"'] + Escaped(s), ['"'], '\n');
  }


  /** The frame of the output: it opens with "{\n" and closes with "\n}"; an empty object
      gives "{\n\n}". */
  lemma StringifyLayout(obj: Record<string>)
    ensures var out := Stringify(obj);
            && out[..2] == "{\n" && out[|out| - 2..] == "\n}"
            && (obj == [] ==> out == "{\n\n}")
  {
    var body := Join(EntryLines(obj), ",\n");
    var out := Stringify(obj);
    assert out == "{\n" + body + "\n}";
    if obj == [] {
      assert body == "";
    }
  }

  /** One line per entry: the output holds exactly |obj| + 1 newlines, or two when empty. */
  lemma StringifyLineCount(obj: Record<string>)
    ensures CountChar(Stringify(obj), '\n') == if obj == [] then 2 else |obj| + 1
  {
    var lines := EntryLines(obj);
    var body := Join(lines, ",\n");
    assert Stringify(obj) == "{\n" + body + "\n}";
    CountCharConcat("{\n", body, '\n');
    CountCharConcat("{\n" + body, "\n}", '\n');
    assert CountChar("{\n", '\n') == 1 && CountChar("\n}", '\n') == 1 by {
      assert CountChar("}", '\n') == 0;
    }
    if obj == [] {
      assert body == "";
      assert CountChar(body, '\n') == 0;
    } else {
      forall i | 0 <= i < |lines| ensures CountChar(lines[i], '\n') == 0 {
        EntryLineSingle(obj[i].0, obj[i].1);
      }
      assert CountChar(",\n", '\n') == 1;
      CountCharJoin(lines, ",\n", '\n');
    }
  }
}

=== FILE: lang.dfy ===
/**
 * The language resolver of src/lang.ts: a table from canonical language code to
 * English display name, looked up by exact key or case-insensitively by code or name.
 */
module Lang {
  import opened Wrappers
  import opened Strings
  import opened Records

  /** The language table in its key order: (code, display name) pairs. */
  type LangTable = Record<string>

  /** Keys are non-empty (the table asset's invariant). */
  predicate NonEmptyKeys(table: LangTable) {
    forall i :: 0 <= i < |table| ==> table[i].0 != ""
  }

  /**
   * No two entries collide once lower-cased: no entry's code or name equals, ignoring
   * case, another entry's code or name. The shipped table is assumed, not known, to
   * satisfy this; the scan's first-match rule decides otherwise.
   */
  predicate CollisionFree(table: LangTable) {
    forall i, j :: 0 <= i < j < |table| ==>
      && Lower(table[i].0) != Lower(table[j].0)
      && Lower(table[i].0) != Lower(table[j].1)
      && Lower(table[i].1) != Lower(table[j].0)
      && Lower(table[i].1) != Lower(table[j].1)
  }

  /** `LANGS[lang]` is truthy: `lang` is a key whose display name is not empty. */
  predicate IsNamedKey(table: LangTable, lang: string) {
    var name := Get(table, lang);
    name.Some? && name.value != ""
  }

  /** The scan's test of one entry against the lower-cased input. */
  predicate Matches(entry: (string, string), lowered: string) {
    Lower(entry.0) == lowered || Lower(entry.1) == lowered
  }

  /** Entry `i` is the first entry of the table that matches. */
  predicate FirstMatchAt(table: LangTable, lowered: string, i: int) {
    && 0 <= i < |table|
    && Matches(table[i], lowered)
    && forall j :: 0 <= j < i ==> !Matches(table[j], lowered)
  }

  /** The case-insensitive linear scan, as a specification: the code of the first match. */
  function Scan(table: LangTable, lowered: string): (r: Option<string>)
    ensures r.None? <==> forall i :: 0 <= i < |table| ==> !Matches(table[i], lowered)
    ensures r.Some? ==> exists i :: FirstMatchAt(table, lowered, i) && table[i].0 == r.value
    decreases |table|
  {
    if table == [] then None
    else if Matches(table[0], lowered) then
      assert FirstMatchAt(table, lowered, 0);
      Some(table[0].0)
    else
      var r := Scan(table[1..], lowered);
      assert r.None? <==> forall i :: 0 <= i < |table| ==> !Matches(table[i], lowered) by {
        if r.None? {
          forall i | 0 <= i < |table| ensures !Matches(table[i], lowered) {
            if i > 0 { assert table[i] == table[1..][i - 1]; }
          }
        } else {
          var i :| FirstMatchAt(table[1..], lowered, i);
          assert table[i + 1] == table[1..][i];
        }
      }
      assert r.Some? ==> exists i :: FirstMatchAt(table, lowered, i) && table[i].0 == r.value by {
        if r.Some? {
          var i :| FirstMatchAt(table[1..], lowered, i) && table[1..][i].0 == r.value;
          assert table[i + 1] == table[1..][i];
          forall j | 0 <= j < i + 1 ensures !Matches(table[j], lowered) {
            if j > 0 { assert table[j] == table[1..][j - 1]; }
          }
          assert FirstMatchAt(table, lowered, i + 1);
        }
      }
      r
  }

  /**
   * `getLangCode` as a specification: nothing for a missing or empty identifier, the
   * identifier itself when it is a key with a name, else the first case-insensitive match.
   */
  function Resolve(table: LangTable, lang: Option<string>): (r: Option<string>)
    ensures r.Some? ==> r.value in Keys(table)
  {
    if lang.None? || lang.value == "" then None
    else if IsNamedKey(table, lang.value) then lang
    else
      var r := Scan(table, Lower(lang.value));
      assert r.Some? ==> r.value in Keys(table) by {
        if r.Some? {
          var i :| FirstMatchAt(table, Lower(lang.value), i) && table[i].0 == r.value;
          assert Keys(table)[i] == r.value;
        }
      }
      r
  }

  /** `getLangCode`: the exact fast path, then an indexed scan with early return. */
  method GetLangCode(table: LangTable, lang: Option<string>) returns (r: Option<string>)
    ensures r == Resolve(table, lang)
    ensures r.Some? ==> r.value in Keys(table)
  {
    if lang.None? || lang.value == "" {
      return None;
    }
    if IsNamedKey(table, lang.value) {
      return lang;
    }
    var lowered := Lower(lang.value);
    assert Resolve(table, lang) == Scan(table, lowered);
    for i := 0 to |table|
      invariant forall j :: 0 <= j < i ==> !Matches(table[j], lowered)
    {
      var (code, name) := table[i];
      if Lower(code) == lowered || Lower(name) == lowered {
        ScanFirstMatch(table, lowered, i);
        return Some(code);
      }
    }
    assert Scan(table, lowered).None?;
    return None;
  }

  /** `isSupported`: `getLangCode` gives a truthy (defined, non-empty) code. */
  function IsSupported(table: LangTable, lang: string): (r: bool)
    ensures NonEmptyKeys(table) ==> (r <==> Resolve(table, Some(lang)).Some?)
  {
    var code := Resolve(table, Some(lang));
    assert NonEmptyKeys(table) && code.Some? ==> code.value != "" by {
      if NonEmptyKeys(table) && code.Some? {
        var i :| 0 <= i < |table| && Keys(table)[i] == code.value;
      }
    }
    code.Some? && code.value != ""
  }

  /** The scan returns the code of the first matching entry. */
  lemma {:induction false} ScanFirstMatch(table: LangTable, lowered: string, i: int)
    requires FirstMatchAt(table, lowered, i)
    ensures Scan(table, lowered) == Some(table[i].0)
    decreases i
  {
    if i > 0 {
      assert FirstMatchAt(table[1..], lowered, i - 1) by {
        assert table[1..][i - 1] == table[i];
        forall j | 0 <= j < i - 1 ensures !Matches(table[1..][j], lowered) {
          assert table[1..][j] == table[j + 1];
        }
      }
      ScanFirstMatch(table[1..], lowered, i - 1);
    }
  }

  /**
   * For an identifier that is not a named key, the result is decided by its lower-cased
   * form alone: it is the code of the first entry whose lower-cased code or name equals it,
   * and undefined exactly when no entry matches.
   */
  lemma ResolveByScan(table: LangTable, x: string, c: string)
    requires x != "" && !IsNamedKey(table, x)
    ensures Resolve(table, Some(x)) == Some(c) <==>
            exists i :: FirstMatchAt(table, Lower(x), i) && table[i].0 == c
    ensures Resolve(table, Some(x)).None? <==>
            forall i :: 0 <= i < |table| ==> !Matches(table[i], Lower(x))
  {
    if exists i :: FirstMatchAt(table, Lower(x), i) && table[i].0 == c {
      var i :| FirstMatchAt(table, Lower(x), i) && table[i].0 == c;
      ScanFirstMatch(table, Lower(x), i);
    }
  }

  /** A key with a non-empty display name resolves to itself. */
  lemma ResolveCanonical(table: LangTable, i: nat)
    requires DistinctKeys(table) && i < |table|
    requires table[i].0 != "" && table[i].1 != ""
    ensures Resolve(table, Some(table[i].0)) == Some(table[i].0)
  {
    GetDistinct(table, i);
  }

  /** On a collision-free table every non-empty identifier is resolved by the scan of its
      lower-cased form: the exact fast path never disagrees with the scan. */
  lemma ResolveIsScan(table: LangTable, x: string)
    requires CollisionFree(table) && x != ""
    ensures Resolve(table, Some(x)) == Scan(table, Lower(x))
  {
    if IsNamedKey(table, x) {
      GetFound(table, x);
      var i :| 0 <= i < |table| && table[i] == (x, Get(table, x).value);
      forall j | 0 <= j < i ensures !Matches(table[j], Lower(x)) {
        assert Lower(table[j].0) != Lower(table[i].0);
        assert Lower(table[j].1) != Lower(table[i].0);
      }
      ScanFirstMatch(table, Lower(x), i);
    }
  }

  /** On a collision-free table, identifiers that agree up to case resolve alike. */
  lemma ResolveCaseInsensitive(table: LangTable, x: string, y: string)
    requires CollisionFree(table) && x != "" && Lower(x) == Lower(y)
    ensures Resolve(table, Some(x)) == Resolve(table, Some(y))
  {
    assert y != "" by { assert |Lower(y)| == |y|; }
    ResolveIsScan(table, x);
    ResolveIsScan(table, y);
  }

  /** On a collision-free table, a non-empty display name resolves to its own code. */
  lemma ResolveDisplayName(table: LangTable, i: nat)
    requires CollisionFree(table) && i < |table| && table[i].1 != ""
    ensures Resolve(table, Some(table[i].1)) == Some(table[i].0)
  {
    var name := table[i].1;
    ResolveIsScan(table, name);
    forall j | 0 <= j < i ensures !Matches(table[j], Lower(name)) {
      assert Lower(table[j].0) != Lower(table[i].1);
      assert Lower(table[j].1) != Lower(table[i].1);
    }
    ScanFirstMatch(table, Lower(name), i);
  }

  /** Every code that `getLangCode` returns is itself supported (keys being non-empty). */
  lemma ResolvedIsSupported(table: LangTable, x: Option<string>)
    requires NonEmptyKeys(table) && Resolve(table, x).Some?
    ensures IsSupported(table, Resolve(table, x).value)
  {
    var c := Resolve(table, x).value;
    var i :| 0 <= i < |table| && Keys(table)[i] == c;
    assert Matches(table[i], Lower(c));
  }
}

=== FILE: records.dfy ===
/**
 * A JavaScript plain object with string keys, as an ordered list of (key, value)
 * pairs in the object's own key order. `Set` is property assignment (an existing key
 * keeps its position, a new key goes last), `Assign` is `Object.assign` and the
 * object spread `{...target, ...source}`, which both assign the source's entries in order.
 */
module Records {
  import opened Wrappers

  type Record<V> = seq<(string, V)>

  function Keys<V>(r: Record<V>): (ks: seq<string>)
    ensures |ks| == |r|
    ensures forall i :: 0 <= i < |r| ==> ks[i] == r[i].0
    decreases |r|
  {
    if r == [] then [] else [r[0].0] + Keys(r[1..])
  }

  predicate DistinctKeys<V>(r: Record<V>) {
    forall i, j :: 0 <= i < j < |r| ==> r[i].0 != r[j].0
  }

  /** `obj[k]`: the value of the first entry named `k`. */
  function Get<V>(r: Record<V>, k: string): (v: Option<V>)
    ensures v.None? <==> k !in Keys(r)
    decreases |r|
  {
    if r == [] then None
    else if r[0].0 == k then Some(r[0].1)
    else
      assert Keys(r) == [r[0].0] + Keys(r[1..]);
      Get(r[1..], k)
  }

  /** `Get` finds the first entry with the key. */
  lemma {:induction false} GetFirst<V>(r: Record<V>, k: string, i: nat)
    requires i < |r| && r[i].0 == k
    requires forall j :: 0 <= j < i ==> r[j].0 != k
    ensures Get(r, k) == Some(r[i].1)
    decreases i
  {
    if i > 0 {
      GetFirst(r[1..], k, i - 1);
    }
  }

  /** A value that `Get` returns sits at some entry with that key. */
  lemma {:induction false} GetFound<V>(r: Record<V>, k: string)
    requires Get(r, k).Some?
    ensures exists i :: 0 <= i < |r| && r[i] == (k, Get(r, k).value)
    decreases |r|
  {
    if r[0].0 != k {
      GetFound(r[1..], k);
      var i :| 0 <= i < |r[1..]| && r[1..][i] == (k, Get(r, k).value);
      assert r[i + 1] == r[1..][i];
    }
  }

  /** With distinct keys, `Get` returns the value stored beside the key. */
  lemma GetDistinct<V>(r: Record<V>, i: nat)
    requires DistinctKeys(r) && i < |r|
    ensures Get(r, r[i].0) == Some(r[i].1)
  {
    GetFirst(r, r[i].0, i);
  }

  /** The value of the last entry named `k`: what a left-to-right assignment leaves. */
  function GetLast<V>(r: Record<V>, k: string): (v: Option<V>)
    ensures v.None? <==> k !in Keys(r)
    decreases |r|
  {
    if r == [] then None
    else
      assert Keys(r) == Keys(r[..|r| - 1]) + [r[|r| - 1].0];
      if r[|r| - 1].0 == k then Some(r[|r| - 1].1) else GetLast(r[..|r| - 1], k)
  }

  /** `obj[k] = v`. */
  function Set<V>(r: Record<V>, k: string, v: V): (r': Record<V>)
    ensures k in Keys(r) ==> Keys(r') == Keys(r)
    ensures k !in Keys(r) ==> r' == r + [(k, v)]
    decreases |r|
  {
    if r == [] then [(k, v)]
    else if r[0].0 == k then
      var r' := [(k, v)] + r[1..];
      assert r'[1..] == r[1..];
      assert Keys(r) == [k] + Keys(r[1..]) == Keys(r');
      r'
    else
      var rest := Set(r[1..], k, v);
      var r' := [r[0]] + rest;
      assert r'[1..] == rest;
      assert Keys(r) == [r[0].0] + Keys(r[1..]) && Keys(r') == [r[0].0] + Keys(rest);
      assert r == [r[0]] + r[1..];
      r'
  }

  /** After `obj[k] = v`, `k` holds `v` and every other key keeps its value. */
  lemma {:induction false} SetGet<V>(r: Record<V>, k: string, v: V, k': string)
    ensures Get(Set(r, k, v), k') == if k' == k then Some(v) else Get(r, k')
    decreases |r|
  {
    if r != [] {
      var r' := Set(r, k, v);
      if r[0].0 == k {
        assert r'[1..] == r[1..];
      } else {
        assert r'[1..] == Set(r[1..], k, v);
        SetGet(r[1..], k, v, k');
      }
    }
  }


  lemma {:induction false} SetDistinct<V>(r: Record<V>, k: string, v: V)
    requires DistinctKeys(r)
    ensures DistinctKeys(Set(r, k, v))
  {
    var r' := Set(r, k, v);
    if k in Keys(r) {
      assert Keys(r') == Keys(r);
      forall i, j | 0 <= i < j < |r'| ensures r'[i].0 != r'[j].0 {
        assert r'[i].0 == Keys(r')[i] && r'[j].0 == Keys(r')[j];
      }
    } else {
      forall i | 0 <= i < |r| ensures r[i].0 != k {
        assert Keys(r)[i] == r[i].0;
      }
    }
  }

  /** `Object.assign(target, source)`: the source's entries assigned one by one, in order. */
  function Assign<V>(target: Record<V>, source: Record<V>): (r: Record<V>)
    decreases |source|
  {
    if source == [] then target
    else Set(Assign(target, source[..|source| - 1]), source[|source| - 1].0, source[|source| - 1].1)
  }

  /** After `Object.assign`, a key the source has holds the source's last value for it;
      every other key keeps the target's value. */
  lemma {:induction false} AssignGet<V>(target: Record<V>, source: Record<V>, k: string)
    ensures Get(Assign(target, source), k) ==
            if k in Keys(source) then GetLast(source, k) else Get(target, k)
    decreases |source|
  {
    if source != [] {
      var n := |source| - 1;
      assert Keys(source) == Keys(source[..n]) + [source[n].0];
      AssignGet(target, source[..n], k);
      SetGet(Assign(target, source[..n]), source[n].0, source[n].1, k);
    }
  }

  /** `Object.assign` keeps the target's keys in place, in their order, as a prefix. */
  lemma {:induction false} AssignKeysPrefix<V>(target: Record<V>, source: Record<V>)
    ensures Keys(target) <= Keys(Assign(target, source))
    decreases |source|
  {
    if source != [] {
      var n := |source| - 1;
      var prev := Assign(target, source[..n]);
      AssignKeysPrefix(target, source[..n]);
      if source[n].0 !in Keys(prev) {
        assert Keys(prev + [source[n]]) == Keys(prev) + [source[n].0];
      }
    }
  }

  lemma {:induction false} AssignDistinct<V>(target: Record<V>, source: Record<V>)
    requires DistinctKeys(target)
    ensures DistinctKeys(Assign(target, source))
    decreases |source|
  {
    if source != [] {
      var n := |source| - 1;
      AssignDistinct(target, source[..n]);
      SetDistinct(Assign(target, source[..n]), source[n].0, source[n].1);
    }
  }

  /** Looking a key up in two records laid end to end. */
  lemma {:induction false} GetConcat<V>(a: Record<V>, b: Record<V>, k: string)
    ensures Get(a + b, k) == if k in Keys(a) then Get(a, k) else Get(b, k)
    decreases |a|
  {
    if a == [] {
      assert a + b == b;
    } else {
      assert (a + b)[1..] == a[1..] + b;
      assert Keys(a) == [a[0].0] + Keys(a[1..]);
      GetConcat(a[1..], b, k);
    }
  }
}

=== FILE: request.dfy ===
/**
 * The request shaping of `translate` in src/index.ts: language normalisation, the
 * unsupported-language check, and the query, body and headers of the POST request.
 */
module Request {
  import opened Wrappers
  import opened Strings
  import opened Records
  import opened Lang

  /** `text: string | string[]`. */
  datatype TextInput = OneText(text: string) | Texts(texts: seq<string>)

  /** `to: string | string[]`. */
  datatype TargetInput = OneTarget(target: string) | Targets(targets: seq<string>)

  /** A `translateOptions` value; `Missing` stands for both `null` and `undefined`. */
  datatype Param = Missing | Str(s: string)

  /** A header value: `authenticationHeaders` is stored as an object under `Authorization`. */
  datatype HeaderValue = Plain(s: string) | Object(fields: Record<string>)

  /** The part of `RequestInit` that `fetchOptions` can carry here. */
  datatype FetchOptions = FetchOptions(
    headers: Option<Record<string>>,
    httpMethod: Option<string>,
    body: Option<string>)

  datatype TranslateOptions = TranslateOptions(
    translateOptions: Option<Record<Param>>,
    authenticationHeaders: Option<Record<string>>,
    userAgent: Option<string>,
    fetchOptions: Option<FetchOptions>)

  /** `options ||= {}`. */
  const NoOptions := TranslateOptions(None, None, None, None)

  datatype TextItem = TextItem(Text: string)

  /** The POST body: the `{Text}` list, or a body that `fetchOptions` supplied. */
  datatype Body = Items(items: seq<TextItem>) | Raw(raw: string)

  datatype RequestInit = RequestInit(headers: Record<HeaderValue>, httpMethod: string, body: Body)

  /** What is handed to `fetch`: the query string's pairs and the request config. */
  datatype Request = Request(query: seq<(string, string)>, init: RequestInit)

  const AutoDetect := "auto-detect"
  const DefaultTarget := "en"
  const ApiVersion := "3.0"

  /** `!text || !text.length`. */
  predicate IsEmptyText(text: TextInput) {
    match text
    case OneText(s) => s == ""
    case Texts(ts) => ts == []
  }

  /** A scalar text becomes a one-segment list. */
  function Segments(text: TextInput): seq<string> {
    match text
    case OneText(s) => [s]
    case Texts(ts) => ts
  }

  function TargetList(to: TargetInput): seq<string> {
    match to
    case OneTarget(t) => [t]
    case Targets(ts) => ts
  }

  /** The source after the auto-detect sentinel is dropped and `getLangCode` is applied. */
  function NormalizeFrom(table: LangTable, from: Option<string>): (r: Option<string>)
    ensures from.Some? && Lower(from.value) == AutoDetect ==> r.None?
    ensures from.None? || from == Some("") ==> r.None?
    ensures !(from.Some? && Lower(from.value) == AutoDetect) ==> r == Resolve(table, from)
    ensures r.Some? ==> r.value in Keys(table)
  {
    var f := if from.Some? && Lower(from.value) == AutoDetect then None else from;
    Resolve(table, f)
  }

  /** `lang.getLangCode(toLang) || "en"`. */
  function ResolveTarget(table: LangTable, target: string): string {
    var code := Resolve(table, Some(target));
    if code.Some? && code.value != "" then code.value else DefaultTarget
  }

  /** The effective target list: every target resolved or replaced by "en"; none gives ["en"]. */
  function NormalizeTargets(table: LangTable, to: TargetInput): (r: seq<string>)
    ensures TargetList(to) == [] ==> r == [DefaultTarget]
    ensures TargetList(to) != [] ==> |r| == |TargetList(to)|
    ensures forall i :: 0 <= i < |TargetList(to)| ==>
              var code := Resolve(table, Some(TargetList(to)[i]));
              && (code.None? || code.value == "" ==> r[i] == DefaultTarget)
              && (code.Some? && code.value != "" ==> r[i] == code.value)
    ensures forall i :: 0 <= i < |r| ==> r[i] == DefaultTarget || r[i] in Keys(table)
  {
    var ts := TargetList(to);
    var mapped := seq(|ts|, i requires 0 <= i < |ts| => ResolveTarget(table, ts[i]));
    if mapped == [] then [DefaultTarget] else mapped
  }

  function Quoted(ts: seq<string>): seq<string> {
    seq(|ts|, i requires 0 <= i < |ts| => "'" + ts[i] + "'")
  }

  /** The "Unsupported language(s)" message, if the normalised languages fail the check. */
  function SupportError(table: LangTable, from: Option<string>, targets: seq<string>): (r: Option<string>)
    ensures r.None? <==> (from.None? || from.value == "" || IsSupported(table, from.value)) &&
                         forall i :: 0 <= i < |targets| ==> IsSupported(table, targets[i])
    ensures from.Some? && from.value != "" && !IsSupported(table, from.value) ==>
              r == Some("Unsupported language(s): " + ("'" + from.value + "'"))
    ensures (from.None? || from.value == "" || IsSupported(table, from.value)) && r.Some? ==>
              r == Some("Unsupported language(s): " + Join(Quoted(targets), ", "))
  {
    var fromSupported := from.None? || from.value == "" || IsSupported(table, from.value);
    var toSupported := forall i :: 0 <= i < |targets| ==> IsSupported(table, targets[i]);
    if fromSupported && toSupported then None
    else
      Some("Unsupported language(s): " +
           (if !fromSupported then "'" + from.value + "'"
            else if !toSupported then Join(Quoted(targets), ", ")
            else ""))
  }

  /** The error `translate` raises for these inputs before any network activity, if any. */
  function LanguageError(table: LangTable, from: Option<string>, to: TargetInput): Option<string> {
    SupportError(table, NormalizeFrom(table, from), NormalizeTargets(table, to))
  }

  function BuildBody(segments: seq<string>): seq<TextItem> {
    seq(|segments|, i requires 0 <= i < |segments| => TextItem(segments[i]))
  }

  /** The object `{"api-version": "3.0", from}` before `translateOptions` is spread over it. */
  function QueryBase(from: Option<string>): Record<Param> {
    [("api-version", Str(ApiVersion)), ("from", if from.Some? then Str(from.value) else Missing)]
  }

  /** The entries that survive `.filter(([_, val]) => val != null && val !== "")`. */
  function Present(r: Record<Param>): seq<(string, string)>
    decreases |r|
  {
    if r == [] then []
    else
      var rest := Present(r[1..]);
      if r[0].1.Str? && r[0].1.s != "" then [(r[0].0, r[0].1.s)] + rest else rest
  }

  /** The `URLSearchParams` pairs: every target as `to`, then the filtered merged object. */
  function TranslateQuery(targets: seq<string>, from: Option<string>, extra: Option<Record<Param>>)
    : seq<(string, string)>
  {
    seq(|targets|, i requires 0 <= i < |targets| => ("to", targets[i])) +
    Present(Assign(QueryBase(from), extra.GetOr([])))
  }

  /** The headers `buildHeaders` returns. */
  function Headers(defaultUserAgent: string, options: TranslateOptions, token: Option<string>)
    : (h: Record<HeaderValue>)
    requires options.authenticationHeaders.Some? || token.Some?
  {
    var base := [("User-Agent", Plain(defaultUserAgent)), ("Content-Type", Plain("application/json"))];
    var auth := if options.authenticationHeaders.Some? then Object(options.authenticationHeaders.value)
                else Plain("Bearer " + token.value);
    var withAuth := Set(base, "Authorization", auth);
    if options.fetchOptions.Some? && options.fetchOptions.value.headers.Some? then
      Assign(withAuth, Lift(options.fetchOptions.value.headers.value))
    else withAuth
  }

  /** Caller-supplied string headers as header values, in their order. */
  function Lift(h: Record<string>): (r: Record<HeaderValue>)
    ensures |r| == |h|
    decreases |h|
  {
    if h == [] then [] else Lift(h[..|h| - 1]) + [(h[|h| - 1].0, Plain(h[|h| - 1].1))]
  }

  /** `{ headers, method: "POST", body, ...fetchOptions }`: `fetchOptions` spread last. */
  function FetchConfig(headers: Record<HeaderValue>, segments: seq<string>, fetchOptions: Option<FetchOptions>)
    : RequestInit
  {
    var init := RequestInit(headers, "POST", Items(BuildBody(segments)));
    match fetchOptions
    case None => init
    case Some(fo) =>
      RequestInit(
        if fo.headers.Some? then Lift(fo.headers.value) else init.headers,
        fo.httpMethod.GetOr(init.httpMethod),
        if fo.body.Some? then Raw(fo.body.value) else init.body)
  }

  /** The whole request `translate` sends, from its raw arguments and the stored token. */
  function BuildRequest(defaultUserAgent: string, table: LangTable, text: TextInput,
                        from: Option<string>, to: TargetInput, options: TranslateOptions,
                        token: Option<string>): Request
    requires options.authenticationHeaders.Some? || token.Some?
  {
    Request(
      TranslateQuery(NormalizeTargets(table, to), NormalizeFrom(table, from), options.translateOptions),
      FetchConfig(Headers(defaultUserAgent, options, token), Segments(text), options.fetchOptions))
  }

  /**
   * The unsupported-language error cannot be raised when "en" is supported: the source is
   * undefined or a resolved code, and every target is a resolved code or "en".
   */
  lemma UnsupportedUnreachable(table: LangTable, from: Option<string>, to: TargetInput)
    requires NonEmptyKeys(table) && IsSupported(table, DefaultTarget)
    ensures LanguageError(table, from, to).None?
  {
    var f := if from.Some? && Lower(from.value) == AutoDetect then None else from;
    if Resolve(table, f).Some? {
      ResolvedIsSupported(table, f);
    }
    var ts := TargetList(to);
    var targets := NormalizeTargets(table, to);
    forall i | 0 <= i < |targets| ensures IsSupported(table, targets[i]) {
      if ts != [] && Resolve(table, Some(ts[i])).Some? && Resolve(table, Some(ts[i])).value != "" {
        ResolvedIsSupported(table, Some(ts[i]));
      }
    }
  }

  /**
   * Without "en" in the table the check does fire for a target that does not resolve, and
   * the message names 'en', the value the target was replaced by, not the caller's identifier.
   */
  lemma UnsupportedNamesDefault(table: LangTable, t: string)
    requires !IsSupported(table, DefaultTarget) && Resolve(table, Some(t)).None?
    ensures LanguageError(table, None, OneTarget(t)) == Some("Unsupported language(s): 'en'")
  {
    assert NormalizeFrom(table, None).None?;
    assert NormalizeTargets(table, OneTarget(t)) == ["en"];
    assert "'" + "en" + "'" == "'en'";
    assert Quoted(["en"]) == ["'en'"];
    assert Join(["'en'"], ", ") == "'en'";
    assert SupportError(table, None, ["en"]) == Some("Unsupported language(s): " + "'en'");
    assert "Unsupported language(s): " + "'en'" == "Unsupported language(s): 'en'";
  }

  /** The filtered entries, looked up by name, are the non-empty string values. */
  lemma {:induction false} PresentGet(r: Record<Param>, k: string)
    requires DistinctKeys(r)
    ensures Get(Present(r), k) == Emitted(Get(r, k))
    decreases |r|
  {
    if r != [] {
      assert DistinctKeys(r[1..]);
      PresentGet(r[1..], k);
      if r[0].0 != k && r[0].1.Str? && r[0].1.s != "" {
        assert Present(r) == [(r[0].0, r[0].1.s)] + Present(r[1..]);
      } else if r[0].0 == k {
        assert k !in Keys(r[1..]) by {
          forall j | 0 <= j < |r[1..]| ensures Keys(r[1..])[j] != k {
            assert r[1..][j] == r[j + 1];
          }
        }
        assert Get(Present(r[1..]), k).None?;
      }
    }
  }

  /** A parameter value as it ends up in the query: dropped when missing or empty. */
  function Emitted(p: Option<Param>): Option<string> {
    if p.Some? && p.value.Str? && p.value.s != "" then Some(p.value.s) else None
  }

  /** The query opens with one `to` pair per target, in target order. */
  lemma QueryTargetsFirst(targets: seq<string>, from: Option<string>, extra: Option<Record<Param>>)
    ensures var q := TranslateQuery(targets, from, extra);
            |q| >= |targets| && forall i :: 0 <= i < |targets| ==> q[i] == ("to", targets[i])
  {
  }

  /** Before filtering, `api-version` and `from` keep the first two places of the merged
      object; `translateOptions` only overrides their values or adds names after them. */
  lemma QueryBaseOrder(from: Option<string>, extra: Record<Param>)
    ensures |Keys(Assign(QueryBase(from), extra))| >= 2
    ensures Keys(Assign(QueryBase(from), extra))[..2] == ["api-version", "from"]
  {
    AssignKeysPrefix(QueryBase(from), extra);
    assert Keys(QueryBase(from)) == ["api-version", "from"];
  }

  /**
   * For any name other than `to`, the query's pair is the value `translateOptions` gives it
   * (overriding `api-version` and `from`), else the built-in value, and there is no pair
   * when that value is missing or empty.
   */
  lemma QueryParam(targets: seq<string>, from: Option<string>, extra: Record<Param>, k: string)
    requires k != "to"
    ensures Get(TranslateQuery(targets, from, Some(extra)), k) ==
            Emitted(if k in Keys(extra) then GetLast(extra, k) else Get(QueryBase(from), k))
  {
    var toPairs := seq(|targets|, i requires 0 <= i < |targets| => ("to", targets[i]));
    var merged := Assign(QueryBase(from), extra);
    assert k !in Keys(toPairs);
    GetConcat(toPairs, Present(merged), k);
    AssignDistinct(QueryBase(from), extra);
    PresentGet(merged, k);
    AssignGet(QueryBase(from), extra, k);
  }

  /** An auto-detected or unresolvable source sends no `from` pair (unless `translateOptions` sets one). */
  lemma NoFromWhenUnset(table: LangTable, from: Option<string>, targets: seq<string>, extra: Record<Param>)
    requires NormalizeFrom(table, from).None? && "from" !in Keys(extra)
    ensures "from" !in Keys(TranslateQuery(targets, NormalizeFrom(table, from), Some(extra)))
  {
    QueryParam(targets, NormalizeFrom(table, from), extra, "from");
  }

  lemma {:induction false} LiftGetLast(h: Record<string>, k: string)
    ensures Keys(Lift(h)) == Keys(h)
    ensures GetLast(Lift(h), k) == if k in Keys(h) then Some(Plain(GetLast(h, k).value)) else None
    decreases |h|
  {
    if h != [] {
      var n := |h| - 1;
      assert Lift(h)[..n] == Lift(h[..n]);
      assert Keys(h) == Keys(h[..n]) + [h[n].0];
      assert Keys(Lift(h)) == Keys(Lift(h[..n])) + [h[n].0];
      LiftGetLast(h[..n], k);
    }
  }

  /**
   * Header precedence in `buildHeaders`: `fetchOptions.headers` win; below them the
   * authorization (the caller's `authenticationHeaders` object, else "Bearer " and the
   * stored token), the default user agent and the JSON content type.
   */
  lemma HeadersPrecedence(defaultUserAgent: string, options: TranslateOptions, token: Option<string>, k: string)
    requires options.authenticationHeaders.Some? || token.Some?
    ensures var h := Headers(defaultUserAgent, options, token);
            var fh := if options.fetchOptions.Some? && options.fetchOptions.value.headers.Some?
                      then options.fetchOptions.value.headers.value else [];
            Get(h, k) ==
              if k in Keys(fh) then Some(Plain(GetLast(fh, k).value))
              else if k == "Authorization" then
                (if options.authenticationHeaders.Some? then Some(Object(options.authenticationHeaders.value))
                 else Some(Plain("Bearer " + token.value)))
              else if k == "User-Agent" then Some(Plain(defaultUserAgent))
              else if k == "Content-Type" then Some(Plain("application/json"))
              else None
  {
    var base := [("User-Agent", Plain(defaultUserAgent)), ("Content-Type", Plain("application/json"))];
    var auth := if options.authenticationHeaders.Some? then Object(options.authenticationHeaders.value)
                else Plain("Bearer " + token.value);
    var withAuth := Set(base, "Authorization", auth);
    assert base[1..] == [("Content-Type", Plain("application/json"))] && base[1..][1..] == [];
    assert Get(base, k) == if k == "User-Agent" then Some(Plain(defaultUserAgent))
                           else if k == "Content-Type" then Some(Plain("application/json"))
                           else None;
    SetGet(base, "Authorization", auth, k);
    assert Get(withAuth, k) == if k == "Authorization" then Some(auth) else Get(base, k);
    if options.fetchOptions.Some? && options.fetchOptions.value.headers.Some? {
      var fh := options.fetchOptions.value.headers.value;
      assert Headers(defaultUserAgent, options, token) == Assign(withAuth, Lift(fh));
      AssignGet(withAuth, Lift(fh), k);
      LiftGetLast(fh, k);
    } else {
      assert Headers(defaultUserAgent, options, token) == withAuth;
    }
  }

  /**
   * The shape of the request `translate` sends. The body holds one `{Text}` per segment in
   * order and the method is POST, unless `fetchOptions` overrides them; when
   * `fetchOptions.headers` is set the request's headers are exactly those, so the merged
   * headers of `buildHeaders` (authorization included) are discarded.
   */
  lemma RequestShape(defaultUserAgent: string, table: LangTable, text: TextInput, from: Option<string>,
                     to: TargetInput, options: TranslateOptions, token: Option<string>)
    requires options.authenticationHeaders.Some? || token.Some?
    ensures var req := BuildRequest(defaultUserAgent, table, text, from, to, options, token);
            var fo := options.fetchOptions;
            && (fo.None? || fo.value.body.None? ==>
                  req.init.body.Items? && |req.init.body.items| == |Segments(text)| &&
                  forall i :: 0 <= i < |Segments(text)| ==> req.init.body.items[i].Text == Segments(text)[i])
            && (fo.None? || fo.value.httpMethod.None? ==> req.init.httpMethod == "POST")
            && (fo.Some? && fo.value.headers.Some? ==>
                  req.init.headers == Lift(fo.value.headers.value) &&
                  ("Authorization" !in Keys(fo.value.headers.value) ==> "Authorization" !in Keys(req.init.headers)))
            && (fo.None? || fo.value.headers.None? ==>
                  req.init.headers == Headers(defaultUserAgent, options, token))
  {
    var req := BuildRequest(defaultUserAgent, table, text, from, to, options, token);
    assert req.init == FetchConfig(Headers(defaultUserAgent, options, token), Segments(text), options.fetchOptions);
    if options.fetchOptions.Some? && options.fetchOptions.value.headers.Some? {
      LiftGetLast(options.fetchOptions.value.headers.value, "Authorization");
    }
  }
}

=== FILE: strings.dfy ===
/** String helpers shared by the resolver, the client and the table generator. */
module Strings {

  /** ASCII lower-casing of one character (stands in for `toLowerCase`). */
  function LowerChar(c: char): char {
    if 'A' <= c <= 'Z' then (c as int + 32) as char else c
  }

  function Lower(s: string): (r: string)
    ensures |r| == |s|
  {
    seq(|s|, i requires 0 <= i < |s| => LowerChar(s[i]))
  }

  /** `Array.prototype.join`: the parts with `sep` between neighbours. */
  function Join(parts: seq<string>, sep: string): string
    decreases |parts|
  {
    if |parts| == 0 then ""
    else if |parts| == 1 then parts[0]
    else parts[0] + sep + Join(parts[1..], sep)
  }

  /** Number of occurrences of `c` in `s`. */
  function CountChar(s: string, c: char): nat
    decreases |s|
  {
    if s == [] then 0 else (if s[0] == c then 1 else 0) + CountChar(s[1..], c)
  }

  lemma {:induction false} CountCharConcat(a: string, b: string, c: char)
    ensures CountChar(a + b, c) == CountChar(a, c) + CountChar(b, c)
    decreases |a|
  {
    if a == [] {
      assert a + b == b;
    } else {
      assert (a + b)[1..] == a[1..] + b;
      CountCharConcat(a[1..], b, c);
    }
  }

  /** Joining parts free of `c` with a separator holding `c` once gives one `c` per gap. */
  lemma {:induction false} CountCharJoin(parts: seq<string>, sep: string, c: char)
    requires |parts| > 0
    requires forall i :: 0 <= i < |parts| ==> CountChar(parts[i], c) == 0
    requires CountChar(sep, c) == 1
    ensures CountChar(Join(parts, sep), c) == |parts| - 1
    decreases |parts|
  {
    if |parts| > 1 {
      CountCharJoin(parts[1..], sep, c);
      CountCharConcat(parts[0], sep, c);
      CountCharConcat(parts[0] + sep, Join(parts[1..], sep), c);
    }
  }

  /** `s.split("\n")`: the pieces between consecutive newlines (never none). */
  function Lines(s: string): (ls: seq<string>)
    ensures |ls| > 0
    decreases |s|
  {
    if s == [] then [""]
    else
      var rest := Lines(s[1..]);
      if s[0] == '\n' then [""] + rest else [[s[0]] + rest[0]] + rest[1..]
  }

  /** A text without newlines is one line. */
  lemma {:induction false} LinesSingle(s: string)
    requires CountChar(s, '\n') == 0
    ensures Lines(s) == [s]
    decreases |s|
  {
    if s != [] {
      LinesSingle(s[1..]);
      assert [s[0]] + s[1..] == s;
    }
  }

  /** One character in front of a text: a newline starts a new line, anything else joins
      the first line. */
  lemma LinesCons(c: char, t: string)
    ensures Lines([c] + t) ==
            if c == '\n' then [""] + Lines(t) else [[c] + Lines(t)[0]] + Lines(t)[1..]
  {
    assert ([c] + t)[1..] == t;
  }

  /** Splitting at a newline between two texts splits each of them. */
  lemma {:induction false} LinesConcat(a: string, b: string)
    ensures Lines(a + "\n" + b) == Lines(a) + Lines(b)
    decreases |a|
  {
    if a == [] {
      assert a + "\n" + b == ['\n'] + b;
      LinesCons('\n', b);
    } else {
      LinesConcat(a[1..], b);
      LinesConcatStep(a[0], a[1..], b);
      assert [a[0]] + a[1..] == a;
    }
  }

  /** The inductive step of `LinesConcat`: one more character in front of the first text. */
  lemma LinesConcatStep(c: char, a: string, b: string)
    requires Lines(a + "\n" + b) == Lines(a) + Lines(b)
    ensures Lines([c] + a + "\n" + b) == Lines([c] + a) + Lines(b)
  {
    var t := a + "\n" + b;
    assert [c] + a + "\n" + b == [c] + t;
    LinesCons(c, t);
    LinesCons(c, a);
    var la, lb := Lines(a), Lines(b);
    if c == '\n' {
      Assoc([""], la, lb);
    } else {
      assert (la + lb)[1..] == la[1..] + lb;
      Assoc([[c] + la[0]], la[1..], lb);
    }
  }

  lemma Assoc<T>(x: seq<T>, y: seq<T>, z: seq<T>)
    ensures x + (y + z) == (x + y) + z
  {
  }

  /** Splitting parts joined with ",\n" gives the parts back, each but the last with its comma. */
  lemma {:induction false} LinesJoin(parts: seq<string>)
    requires |parts| > 0
    requires forall i :: 0 <= i < |parts| ==> CountChar(parts[i], '\n') == 0
    ensures Lines(Join(parts, ",\n")) ==
            seq(|parts|, i requires 0 <= i < |parts| => if i + 1 < |parts| then parts[i] + "," else parts[i])
    decreases |parts|
  {
    var want := seq(|parts|, i requires 0 <= i < |parts| => if i + 1 < |parts| then parts[i] + "," else parts[i]);
    if |parts| == 1 {
      LinesSingle(parts[0]);
    } else {
      var tail := Join(parts[1..], ",\n");
      assert Join(parts, ",\n") == (parts[0] + ",") + "\n" + tail;
      CountCharConcat(parts[0], ",", '\n');
      LinesSingle(parts[0] + ",");
      LinesConcat(parts[0] + ",", tail);
      LinesJoin(parts[1..]);
      assert Lines(Join(parts, ",\n")) == [parts[0] + ","] + Lines(tail);
      assert [want[0]] + want[1..] == want;
    }
  }

  function DigitChar(d: nat): char
    requires d < 10
  {
    ('0' as int + d) as char
  }

  /** Decimal rendering of a natural number, as a template literal prints it. */
  function NatToString(n: nat): (r: string)
    ensures |r| > 0
    decreases n
  {
    if n < 10 then [DigitChar(n)] else NatToString(n / 10) + [DigitChar(n % 10)]
  }
}

=== FILE: wrappers.dfy ===
/** The optional value used wherever the source has `T | undefined`. */
module Wrappers {
  datatype Option<+T> = None | Some(value: T) {
    function GetOr(default: T): T {
      match this
      case Some(v) => v
      case None => default
    }
  }
}
